=== FILE: README.md ===
# WealthWise AI goal planner: a Dafny model

WealthWise AI is a Streamlit app for personal-finance planning. A user states a savings goal, and
the app projects year by year how an initial lump sum plus a monthly contribution grows at the rate
of a chosen risk profile. The user can then ask an AI advisor about the plan. This project models
the part of `app.py` whose behaviour can be stated. It proves properties of that model in Dafny 4.11.

- `growth.dfy` (module `Growth`): the compound-growth projection. The lump sum compounds annually,
  and the twelve yearly contributions form an ordinary annuity. A rate that is not positive takes the
  linear branch, so nothing is divided by zero. The arithmetic is over exact `real`s, with a recursive `Pow`.
- `risk_label.dfy` (module `RiskLabel`): how a label such as `"Moderate (9%)"` becomes a rate. This
  covers `str.split('(')`, `str.replace('%)', '')` and `float(...) / 100`, with both exceptions
  as errors.
- `planner.dfy` (module `Planner`): the plan record, how the "Project My Wealth" action recomputes
  it, the shortfall/surplus judgement sent with the strategy request, and how AI insights are attached.
- `chat.dfy` (module `Chat`): the advisor chat log, with its seed, clear, paired delete and
  question/answer append. It also defines the alternation invariant these operations keep.
- `session.dfy` (module `Session`): the session state, which holds an optional plan and the chat
  log. Every button or input is a pure command on it, and the module proves that every reachable
  session is valid.
- `wrappers.dfy` (module `Wrappers`): `Option` and `Result`.

The Gemini client is a parameter `model: Prompt -> Option<string>`, where `None` stands for the
client's caught exception. The configured API key is a parameter `apiKey: string`. Prompts are the
structured values `StrategyRequest(brief, outlook)` and `AdvisorQuestion(brief, question)`, not
formatted text. A brief holds only what the prompts mention: goal name, target, timeline and final value.

Behaviours of `app.py` worth noting:
- Recomputing a plan does not validate ranges. Only the widgets' minimums and maximums constrain the
  inputs, and the model states them as the predicate `Planner.WidgetRanges`.
- A chat submission whose advisor call fails still appends an assistant turn, whose content is `None`.
- A negative rate is not rejected. Like a zero rate, it takes the linear branch.
- Each chat prompt carries only the plan and the new question, never the earlier conversation.
  `Session.SubmitPromptIgnoresHistory` states this.

## Model

| member | source | states |
|---|---|---|
| Growth.FutureValue | app.py:109-111 | the value in year 0 is the initial investment; at rate 0 the value in year y is initial + monthly·12·y, from the branch that does not divide |
| Growth.Project | app.py:106-111 | the loop yields years 0..timeline in order and one value per year, each the closed-form value; with timeline ≥ 0 it has timeline+1 entries and the first is the initial investment |
| Growth.ProjectionShape | app.py:106-111 | a projection has timeline+1 entries; its years are 0, 1, …, timeline, strictly increasing; the first value is the initial investment |
| Growth.ProjectionZeroRate | app.py:110 | at rate 0 every entry is initial + monthly·12·y |
| Growth.ProjectionMonotone | app.py:108-111 | with a non-negative rate, initial investment and contribution, the series never decreases |
| Growth.FutureValueMonotone | app.py:108-111 | under the same conditions, a later year is worth at least as much as an earlier year |
| Growth.FutureValueAtLeastInitial | app.py:109-111 | under the same conditions, no year is worth less than the initial investment |
| Growth.FutureValueStep | app.py:109-110 | for a non-negative rate, the next year's value is this year's times (1 + rate) plus twelve contributions |
| Growth.ClosedFormMatchesRecurrence | app.py:109-111 | for a non-negative rate, the closed form equals an independent year-by-year recurrence |
| Growth.AnnuityIsGeometricSum | app.py:110 | for a positive rate, the annuity factor ((1+r)^y − 1)/r equals the sum of the growth factors (1+r)^k for k < y |
| Growth.LumpSumExample | app.py:106-111 | 1000 at 10% with no contributions over one year projects to [1000, 1100] |
| Growth.ZeroRateExample | app.py:110 | 1000 a month at rate 0 reaches 36000 in year 3 |
| RiskLabel.Split | app.py:104 | splitting yields at least one piece; exactly one piece iff the separator is absent; no piece contains the separator |
| RiskLabel.SplitJoin | app.py:104 | joining the pieces with the separator gives back the original text |
| RiskLabel.SplitAtFirst | app.py:104 | the text before the first separator is the first piece, and the remainder splits on its own |
| RiskLabel.SplitOnce | app.py:104 | text with exactly one separator splits into the part before it and the part after it |
| RiskLabel.ReplaceAll | app.py:104 | with a non-empty pattern and a replacement no longer than it, the result is never longer than the input; with an empty pattern the result has one copy of the replacement per gap (length+1 of them) |
| RiskLabel.ReplaceLeftmost | app.py:104 | replacement is leftmost and non-overlapping: the first occurrence of the pattern becomes the replacement, and replacing resumes right after it |
| RiskLabel.ReplaceAbsent | app.py:104 | text in which the pattern never occurs is returned unchanged |
| RiskLabel.ReplaceTrailing | app.py:104 | when the text cannot start the pattern, the pattern appended to it is replaced exactly once, at the end |
| RiskLabel.StripPercent | app.py:104 | removing "%)" from digits followed by "%)" leaves the digits |
| RiskLabel.ParseDecimal | app.py:105 | a parsed number is non-negative, and parsing succeeds only on a plain numeral (digits with at most one '.', at least one digit); any other text is `float()`'s ValueError |
| RiskLabel.ParseDecimalDomain | app.py:105 | parsing succeeds if and only if the text is a plain numeral, so every other text becomes the rate's NotANumber error |
| RiskLabel.ParseDigits | app.py:105 | a non-empty digit string parses to the whole number it spells |
| RiskLabel.ParseFraction | app.py:105 | a numeral whole.frac with at least one digit parses to whole + frac/10^(number of fraction digits) |
| RiskLabel.ParseRate | app.py:104-105 | a parsed rate is non-negative; the error is "no opening parenthesis" exactly when the label has no '('; a NotANumber error carries text that is not a numeral |
| RiskLabel.ParseRateText | app.py:104-105 | for any label with a '(', the rate exists exactly when the text up to the next '(' (or the end), with "%)" removed, is a numeral; otherwise the error is NotANumber of that text (float()'s ValueError) |
| RiskLabel.PercentLabel | app.py:104-105 | any label of the form name(digits%), where name has no '(', gives the rate digits/100 |
| RiskLabel.ConservativeRate | app.py:101-105 | "Conservative (6%)" gives exactly 6/100 |
| RiskLabel.ModerateRate | app.py:101-105 | "Moderate (9%)" gives exactly 9/100 |
| RiskLabel.AggressiveRate | app.py:101-105 | "Aggressive (12%)" gives exactly 12/100 |
| RiskLabel.OfferedLabelsParse | app.py:101-105 | every label the select box offers parses to a positive rate |
| Planner.Recompute | app.py:103-120 | fails exactly when the label has no rate or the timeline is negative; otherwise the new plan copies the inputs, agrees with its own projection, has final value equal to the last entry, and has no insights |
| Planner.RecomputeWithinWidgets | app.py:95-120 | inputs within the widget ranges always give a plan; its first value is the initial investment, its series never decreases, and its final value is at least the initial investment |
| Planner.Assess | app.py:132-134 | reports a surplus iff the final value reaches the target, otherwise a shortfall; the amount is non-negative and bridges the final value and the target exactly |
| Planner.AttachInsights | app.py:136-138 | insights change only for a non-empty reply and become that reply; every other field is unchanged, and the plan stays consistent |
| Chat.DeletePair | app.py:172-175 | applies only to a user turn followed by an assistant turn; it then removes exactly those two turns, keeps all others in order, and shrinks the log by 2; otherwise the log is unchanged |
| Chat.Pop | app.py:174-175 | removing index k shortens the list by one, keeps the earlier elements and shifts the later ones down |
| Chat.DeletePairIsTwoPops | app.py:172-175 | the paired delete equals popping index i+1 and then index i |
| Chat.AppendExchange | app.py:184-192 | a submission appends the user turn, then the assistant turn with whatever reply came back, including none; the log grows by 2 and keeps its earlier turns |
| Chat.SeedIsGreeting | app.py:44 | the seeded log holds one message, from the assistant, and so alternates |
| Chat.ClearedIsGreeting | app.py:149 | the cleared log holds one message, from the assistant, and so alternates |
| Chat.DeletableInAlternating | app.py:166-175 | in an alternating log, a delete applies at index i iff i is odd and within the log |
| Chat.DeletePairKeepsAlternating | app.py:172-175 | a paired delete keeps the log alternating |
| Chat.AppendKeepsAlternating | app.py:184-192 | appending a question and its reply keeps the log alternating |
| Session.Start | app.py:40-44 | a new session has no plan and a one-message log whose message is from the assistant |
| Session.ProjectWealth | app.py:103-120 | a failed recompute changes nothing; a successful one stores exactly the recomputed plan, which is consistent and has no insights; the chat is never touched |
| Session.GenerateStrategy | app.py:131-138 | with no plan or no key nothing changes; otherwise only the insights can change, only to the gateway's non-empty reply, and a non-empty reply is always stored |
| Session.ClearChat | app.py:148-150 | the log becomes a single assistant message, and the plan is untouched |
| Session.DeleteExchange | app.py:152-176 | with no plan, or where no pair applies, nothing changes; otherwise the question and its answer are removed |
| Session.SubmitQuestion | app.py:180-192 | with no plan, an empty question or no key nothing changes; otherwise the user turn and the assistant reply are appended, even when the reply is missing |
| Session.StepKeepsValid | app.py:103-192 | every user action keeps the chat alternating and any stored plan consistent with its inputs |
| Session.RunKeepsValid | app.py:103-192 | any sequence of actions keeps a valid session valid |
| Session.ReachableSessionsValid | app.py:40-44 | the new session is valid, and so is every session reachable from it |
| Session.ProjectWealthReplacesPlan | app.py:113-120 | a recompute overwrites the whole plan: from any prior state the same inputs give the same plan, with no insights |
| Session.InsightsClearedByRecompute | app.py:113-120 | insights generated before a recompute do not survive it |
| Session.SubmitPromptIgnoresHistory | app.py:186-192 | the appended reply is the gateway's answer to a prompt built from the plan and the question only, never from the earlier conversation |
| Session.PromptsIgnoreInsights | app.py:132-187 | both prompts show the advisor only the goal, target, timeline and final value (and the outlook): plans differing only in their insights give the same prompts |

## Left out

- RiskLabel.ReplaceAll: with an empty pattern, only the length of the result is stated, not the
  interleaving of the replacement between the characters; the labels never use an empty pattern.
- Floating point: values are exact reals. IEEE-754 rounding, and the float comparison to within a
  relative tolerance of 1e-6, are not modelled.
- Number formatting in prompts and in the plan summary (`:,` and `:,.2f`): prompts are structured values.
- RiskLabel.ParseDecimal: covers only plain decimal numerals (digits with at most one '.'), not
  everything Python's `float()` accepts. Signs, surrounding whitespace, exponents, underscores and
  `inf`/`nan` are rejected here; none of them occurs in the three offered labels.
- The Gemini client and the reading of the secret (app.py:25-38): the model is a function parameter
  and the key is a string parameter. A missing secret, which raises at start-up, is not modelled.
- Streamlit page configuration, the navigation menu, `st.rerun` and page routing: these are UI re-render plumbing.
- CSS loading: file I/O.
- The Plotly chart, the welcome page, the team roster and the plan-summary expander: pure presentation.
- The planner form's default values, which are read back from the stored plan: widget presentation.
- The widgets' enforcement of their ranges: this is the predicate `Planner.WidgetRanges`, assumed
  only by `Planner.RecomputeWithinWidgets`.

=== FILE: chat.dfy ===
/**
 * The advisor chat log: an ordered list of turns, seeded with a greeting,
 * grown a question and its answer at a time, shrunk by deleting a question
 * together with its answer, and reset in bulk.
 */
module Chat {
  import opened Wrappers

  datatype Role = User | Assistant

  /** One turn. An assistant turn has no content when the advisor returned nothing. */
  datatype Message = Message(role: Role, content: Option<string>)

  const Greeting: string := "How can I help with your plan today?"
  const ClearedGreeting: string := "Chat history cleared. How can I help you?"

  /** The log a new session starts with. */
  function Seed(): seq<Message>
  {
    [Message(Assistant, Some(Greeting))]
  }

  /** The log after "Clear Entire Chat History". */
  function Cleared(): seq<Message>
  {
    [Message(Assistant, Some(ClearedGreeting))]
  }

  /** The turn at `i` is a question whose answer follows it: only then is it offered for deletion. */
  predicate CanDeletePair(log: seq<Message>, i: nat)
  {
    i + 1 < |log| && log[i].role == User && log[i + 1].role == Assistant
  }

  /**
   * Deleting the question at `i` and its answer. Anything else leaves the log
   * as it is, so a turn is never removed on its own.
   */
  function DeletePair(log: seq<Message>, i: nat): (r: seq<Message>)
    ensures CanDeletePair(log, i) ==> |r| == |log| - 2
    ensures CanDeletePair(log, i) ==> r[..i] == log[..i] && r[i..] == log[i + 2..]
    ensures CanDeletePair(log, i) ==> multiset(r) + multiset{log[i], log[i + 1]} == multiset(log)
    ensures !CanDeletePair(log, i) ==> r == log
  {
    if CanDeletePair(log, i) then
      assert log == log[..i] + [log[i], log[i + 1]] + log[i + 2..];
      log[..i] + log[i + 2..]
    else log
  }

  /** A submitted question, then the advisor's reply to it (missing or not). */
  function AppendExchange(log: seq<Message>, question: string, reply: Option<string>): (r: seq<Message>)
    ensures |r| == |log| + 2 && r[..|log|] == log
    ensures r[|log|] == Message(User, Some(question))
    ensures r[|log| + 1] == Message(Assistant, reply)
  {
    log + [Message(User, Some(question)), Message(Assistant, reply)]
  }

  /** The role a well-formed log has at position `k`: the greeting, then question/answer pairs. */
  function RoleAt(k: nat): Role
  {
    if k % 2 == 0 then Assistant else User
  }

  /** The log opens with an assistant turn and then alternates question, answer. */
  predicate Alternating(log: seq<Message>)
  {
    |log| % 2 == 1 && forall k :: 0 <= k < |log| ==> log[k].role == RoleAt(k)
  }

  /** The seeded log is a lone assistant greeting, and so alternates. */
  lemma SeedIsGreeting()
    ensures |Seed()| == 1 && Seed()[0].role == Assistant && Alternating(Seed())
  {
  }

  /** The cleared log is a lone assistant greeting, and so alternates. */
  lemma ClearedIsGreeting()
    ensures |Cleared()| == 1 && Cleared()[0].role == Assistant && Alternating(Cleared())
  {
  }

  /** In a well-formed log exactly the questions, the odd positions, can be deleted. */
  lemma DeletableInAlternating(log: seq<Message>, i: nat)
    requires Alternating(log)
    ensures CanDeletePair(log, i) <==> i < |log| && i % 2 == 1
  {
  }

  /** Deleting a pair keeps the log well formed. */
  lemma DeletePairKeepsAlternating(log: seq<Message>, i: nat)
    requires Alternating(log)
    ensures Alternating(DeletePair(log, i))
  {
    if CanDeletePair(log, i) {
      var r := DeletePair(log, i);
      forall k | 0 <= k < |r|
        ensures r[k].role == RoleAt(k)
      {
        if k >= i {
          assert r[k] == log[k + 2];
        }
      }
    }
  }

  /** Appending a question and its reply keeps the log well formed. */
  lemma AppendKeepsAlternating(log: seq<Message>, question: string, reply: Option<string>)
    requires Alternating(log)
    ensures Alternating(AppendExchange(log, question, reply))
  {
  }

  /** Python's `list.pop(k)`: the list without its element at `k`. */
  function Pop(log: seq<Message>, k: nat): (r: seq<Message>)
    requires k < |log|
    ensures |r| == |log| - 1
    ensures forall j :: 0 <= j < |r| ==> r[j] == (if j < k then log[j] else log[j + 1])
  {
    log[..k] + log[k + 1..]
  }

  /** The deletion is `app.py`'s two `pop` calls: first the answer at i + 1, then the question at i. */
  lemma DeletePairIsTwoPops(log: seq<Message>, i: nat)
    requires CanDeletePair(log, i)
    ensures DeletePair(log, i) == Pop(Pop(log, i + 1), i)
  {
  }
}

=== FILE: growth.dfy ===
/**
 * The year-by-year compound-growth projection of the goal planner.
 *
 * All arithmetic is over exact reals: the lump sum compounds once a year and
 * the monthly contribution, twelve times a year, is treated as an ordinary
 * annuity with the annual rate.
 */
module Growth {

  /** `b` raised to the natural power `n`. */
  function Pow(b: real, n: nat): (r: real)
    ensures b >= 1.0 ==> r >= 1.0
  {
    if n == 0 then 1.0
    else
      var q := Pow(b, n - 1);
      assert b >= 1.0 ==> b * q >= q >= 1.0 by {
        if b >= 1.0 { MulMonotone(q, b); }
      }
      b * q
  }

  /** Multiplying a non-negative amount by a factor of at least one does not decrease it. */
  lemma MulMonotone(x: real, f: real)
    requires x >= 0.0 && f >= 1.0
    ensures f * x >= x
  {
    assert f * x - x == (f - 1.0) * x;
  }

  lemma {:induction false} PowOne(n: nat)
    ensures Pow(1.0, n) == 1.0
  {
    if n > 0 { PowOne(n - 1); }
  }

  /**
   * The projected value after `year` years. A rate that is not positive takes
   * the linear branch, so the annuity term never divides by zero.
   */
  function FutureValue(initial: real, monthly: real, rate: real, year: nat): (r: real)
    ensures year == 0 ==> r == initial
    ensures rate == 0.0 ==> r == initial + monthly * 12.0 * year as real
  {
    var growth := Pow(1.0 + rate, year);
    var fvInitial := initial * growth;
    var fvMonthly :=
      if rate > 0.0 then monthly * 12.0 * ((growth - 1.0) / rate)
      else monthly * 12.0 * year as real;
    PowOne(year);
    fvInitial + fvMonthly
  }

  /** The years of a projection: 0, 1, ..., timeline (empty when timeline is negative). */
  function Years(timeline: int): seq<int>
  {
    seq(if timeline >= 0 then timeline + 1 else 0, y => y)
  }

  /** The projected values for the years 0, 1, ..., timeline. */
  function Projection(initial: real, monthly: real, rate: real, timeline: int): seq<real>
  {
    seq(if timeline >= 0 then timeline + 1 else 0, y requires 0 <= y => FutureValue(initial, monthly, rate, y))
  }

  /**
   * The projection loop: for each year from 0 to the timeline, compute the
   * value and append it to the series.
   */
  method Project(initial: real, monthly: real, rate: real, timeline: int)
    returns (years: seq<int>, values: seq<real>)
    ensures |years| == |values| == (if timeline >= 0 then timeline + 1 else 0)
    ensures forall k :: 0 <= k < |years| ==> years[k] == k
    ensures forall k :: 0 <= k < |values| ==> values[k] == FutureValue(initial, monthly, rate, k)
    ensures timeline >= 0 ==> values[0] == initial
    ensures years == Years(timeline) && values == Projection(initial, monthly, rate, timeline)
  {
    years := Years(timeline);
    values := [];
    var year := 0;
    while year < |years|
      invariant 0 <= year <= |years|
      invariant |values| == year
      invariant forall k :: 0 <= k < year ==> values[k] == FutureValue(initial, monthly, rate, k)
    {
      var fv := FutureValue(initial, monthly, rate, years[year]);
      values := values + [fv];
      year := year + 1;
    }
  }

  /** The independent reference: each year multiplies by (1 + rate) and adds twelve contributions. */
  function Recurrence(initial: real, monthly: real, rate: real, year: nat): real
  {
    if year == 0 then initial
    else Recurrence(initial, monthly, rate, year - 1) * (1.0 + rate) + 12.0 * monthly
  }

  /** The sum b^0 + b^1 + ... + b^(n-1). */
  function GeometricSum(b: real, n: nat): real
  {
    if n == 0 then 0.0 else GeometricSum(b, n - 1) + Pow(b, n - 1)
  }

  /** With a positive rate the closed-form annuity factor is the geometric sum of yearly growth factors. */
  lemma {:induction false} AnnuityIsGeometricSum(rate: real, n: nat)
    requires rate > 0.0
    ensures (Pow(1.0 + rate, n) - 1.0) / rate == GeometricSum(1.0 + rate, n)
  {
    if n > 0 {
      AnnuityIsGeometricSum(rate, n - 1);
      var p := Pow(1.0 + rate, n - 1);
      var a := (p - 1.0) / rate;
      assert p - 1.0 == a * rate;
      assert Pow(1.0 + rate, n) - 1.0 == (a + p) * rate;
      DivCancel(Pow(1.0 + rate, n) - 1.0, a + p, rate);
    }
  }

  /** Dividing a product by one of its non-zero factors gives back the other. */
  lemma DivCancel(x: real, y: real, d: real)
    requires d != 0.0 && x == y * d
    ensures x / d == y
  {
  }

  /** One year later the value has grown by the rate and gained twelve contributions. */
  lemma FutureValueStep(initial: real, monthly: real, rate: real, year: nat)
    requires rate >= 0.0
    ensures FutureValue(initial, monthly, rate, year + 1)
         == FutureValue(initial, monthly, rate, year) * (1.0 + rate) + 12.0 * monthly
  {
    var p := Pow(1.0 + rate, year);
    assert Pow(1.0 + rate, year + 1) == (1.0 + rate) * p;
    if rate > 0.0 {
      var a := (p - 1.0) / rate;
      assert p - 1.0 == a * rate;
      assert (1.0 + rate) * p - 1.0 == (a * (1.0 + rate) + 1.0) * rate;
      DivCancel((1.0 + rate) * p - 1.0, a * (1.0 + rate) + 1.0, rate);
    } else {
      PowOne(year);
      PowOne(year + 1);
    }
  }

  /** For a non-negative rate the closed form agrees with the year-by-year recurrence. */
  lemma {:induction false} ClosedFormMatchesRecurrence(initial: real, monthly: real, rate: real, year: nat)
    requires rate >= 0.0
    ensures FutureValue(initial, monthly, rate, year) == Recurrence(initial, monthly, rate, year)
  {
    if year > 0 {
      ClosedFormMatchesRecurrence(initial, monthly, rate, year - 1);
      FutureValueStep(initial, monthly, rate, year - 1);
    }
  }

  /** With non-negative inputs the value never falls below the lump sum. */
  lemma {:induction false} FutureValueAtLeastInitial(initial: real, monthly: real, rate: real, year: nat)
    requires initial >= 0.0 && monthly >= 0.0 && rate >= 0.0
    ensures FutureValue(initial, monthly, rate, year) >= initial
  {
    if year > 0 {
      FutureValueAtLeastInitial(initial, monthly, rate, year - 1);
      FutureValueStep(initial, monthly, rate, year - 1);
      var v := FutureValue(initial, monthly, rate, year - 1);
      MulMonotone(v, 1.0 + rate);
    }
  }

  /** With non-negative inputs a later year is worth at least as much as an earlier one. */
  lemma {:induction false} FutureValueMonotone(initial: real, monthly: real, rate: real, j: nat, k: nat)
    requires initial >= 0.0 && monthly >= 0.0 && rate >= 0.0
    requires j <= k
    ensures FutureValue(initial, monthly, rate, j) <= FutureValue(initial, monthly, rate, k)
  {
    if j < k {
      FutureValueMonotone(initial, monthly, rate, j, k - 1);
      FutureValueStep(initial, monthly, rate, k - 1);
      FutureValueAtLeastInitial(initial, monthly, rate, k - 1);
      MulMonotone(FutureValue(initial, monthly, rate, k - 1), 1.0 + rate);
    }
  }

  /** The projection has one entry per year 0..timeline, and the first is the lump sum. */
  lemma ProjectionShape(initial: real, monthly: real, rate: real, timeline: int)
    requires timeline >= 0
    ensures |Projection(initial, monthly, rate, timeline)| == |Years(timeline)| == timeline + 1
    ensures forall k :: 0 <= k < |Years(timeline)| ==> Years(timeline)[k] == k
    ensures forall j, k :: 0 <= j < k < |Years(timeline)| ==> Years(timeline)[j] < Years(timeline)[k]
    ensures Projection(initial, monthly, rate, timeline)[0] == initial
    ensures Years(timeline)[timeline] == timeline
  {
  }

  /** At rate zero each year adds exactly twelve monthly contributions and nothing compounds. */
  lemma ProjectionZeroRate(initial: real, monthly: real, timeline: int)
    ensures forall y :: 0 <= y < |Projection(initial, monthly, 0.0, timeline)| ==>
      Projection(initial, monthly, 0.0, timeline)[y] == initial + monthly * 12.0 * y as real
  {
  }

  /** With non-negative inputs the projected series is non-decreasing. */
  lemma ProjectionMonotone(initial: real, monthly: real, rate: real, timeline: int)
    requires initial >= 0.0 && monthly >= 0.0 && rate >= 0.0
    ensures forall j, k :: 0 <= j <= k < |Projection(initial, monthly, rate, timeline)| ==>
      Projection(initial, monthly, rate, timeline)[j] <= Projection(initial, monthly, rate, timeline)[k]
  {
    forall j, k | 0 <= j <= k < |Projection(initial, monthly, rate, timeline)|
      ensures Projection(initial, monthly, rate, timeline)[j] <= Projection(initial, monthly, rate, timeline)[k]
    {
      FutureValueMonotone(initial, monthly, rate, j, k);
    }
  }

  /** A lump sum of 1000 at 10% with no contributions is worth 1100 after one year. */
  lemma LumpSumExample()
    ensures Projection(1000.0, 0.0, 0.1, 1) == [1000.0, 1100.0]
  {
    var s := Projection(1000.0, 0.0, 0.1, 1);
    FutureValueStep(1000.0, 0.0, 0.1, 0);
    assert s[1] == FutureValue(1000.0, 0.0, 0.1, 1) == 1000.0 * 1.1;
  }

  /** At rate zero, 1000 a month for three years with no lump sum reaches 36000. */
  lemma ZeroRateExample()
    ensures Projection(0.0, 1000.0, 0.0, 3)[3] == 36000.0
  {
  }
}

=== FILE: planner.dfy ===
/**
 * The financial plan record of the goal planner: recomputing it from the form
 * inputs, judging it against the target, and attaching AI insights to it.
 */
module Planner {
  import opened Wrappers
  import Growth
  import RiskLabel

  /** What the goal-planner form collects. Amounts are whole rupees. */
  datatype PlanInputs = PlanInputs(
    goalName: string,
    targetAmount: int,
    timeline: int,
    initialInvestment: int,
    monthlyContribution: int,
    riskProfile: string)

  /** The stored plan: the inputs, the rate they name, the projection and optional insights. */
  datatype Plan = Plan(
    goalName: string,
    targetAmount: int,
    timeline: int,
    initialInvestment: int,
    monthlyContribution: int,
    riskProfile: string,
    annualRate: real,
    years: seq<int>,
    futureValues: seq<real>,
    finalValue: real,
    aiInsights: Option<string>)

  /** Why recomputing stops before a plan is stored. */
  datatype PlanError =
    | BadRiskLabel(cause: RiskLabel.LabelError) // the label names no rate
    | EmptyProjection                           // the series has no last element to read

  /** The ranges the form's widgets enforce before the button can be pressed. */
  predicate WidgetRanges(inputs: PlanInputs)
  {
    && inputs.targetAmount >= 100000
    && 1 <= inputs.timeline <= 50
    && inputs.initialInvestment >= 0
    && inputs.monthlyContribution >= 0
    && inputs.riskProfile in RiskLabel.Labels
  }

  /**
   * A plan whose projection agrees with its own inputs: one entry per year
   * 0..timeline, each the compound-growth value at the plan's rate, the rate
   * the one its label names, and the final value the last entry.
   */
  ghost predicate Consistent(p: Plan)
  {
    && p.timeline >= 0
    && RiskLabel.ParseRate(p.riskProfile) == Ok(p.annualRate)
    && |p.years| == |p.futureValues| == p.timeline + 1
    && (forall k :: 0 <= k < |p.years| ==> p.years[k] == k)
    && (forall k :: 0 <= k < |p.futureValues| ==>
          p.futureValues[k] == Growth.FutureValue(p.initialInvestment as real, p.monthlyContribution as real, p.annualRate, k))
    && p.finalValue == p.futureValues[p.timeline]
  }

  /**
   * The "Project My Wealth" action: read the rate from the label, project the
   * series and build a fresh plan record, which carries no insights.
   */
  function Recompute(inputs: PlanInputs): (r: Result<Plan, PlanError>)
    ensures r.Err? <==> RiskLabel.ParseRate(inputs.riskProfile).Err? || inputs.timeline < 0
    ensures r.Ok? ==> Consistent(r.value)
    ensures r.Ok? ==> r.value.aiInsights == None
    ensures r.Ok? ==>
      && r.value.goalName == inputs.goalName
      && r.value.targetAmount == inputs.targetAmount
      && r.value.timeline == inputs.timeline
      && r.value.initialInvestment == inputs.initialInvestment
      && r.value.monthlyContribution == inputs.monthlyContribution
      && r.value.riskProfile == inputs.riskProfile
  {
    match RiskLabel.ParseRate(inputs.riskProfile)
    case Err(e) => Err(BadRiskLabel(e))
    case Ok(rate) =>
      var years := Growth.Years(inputs.timeline);
      var values := Growth.Projection(inputs.initialInvestment as real, inputs.monthlyContribution as real, rate, inputs.timeline);
      if |values| == 0 then Err(EmptyProjection)
      else
        Ok(Plan(inputs.goalName, inputs.targetAmount, inputs.timeline,
                inputs.initialInvestment, inputs.monthlyContribution, inputs.riskProfile,
                rate, years, values, values[|values| - 1], None))
  }

  /**
   * Inputs the widgets admit always give a plan; its first projected value is the
   * initial investment and its values never decrease, so the final value is the largest.
   */
  lemma RecomputeWithinWidgets(inputs: PlanInputs)
    requires WidgetRanges(inputs)
    ensures Recompute(inputs).Ok?
    ensures Recompute(inputs).value.futureValues[0] == inputs.initialInvestment as real
    ensures forall j, k :: 0 <= j <= k < |Recompute(inputs).value.futureValues| ==>
      Recompute(inputs).value.futureValues[j] <= Recompute(inputs).value.futureValues[k]
    ensures Recompute(inputs).value.finalValue >= inputs.initialInvestment as real
  {
    RiskLabel.OfferedLabelsParse(inputs.riskProfile);
    var rate := RiskLabel.ParseRate(inputs.riskProfile).value;
    Growth.ProjectionMonotone(inputs.initialInvestment as real, inputs.monthlyContribution as real, rate, inputs.timeline);
  }

  /** How the projected final value compares with the target, and by how much. */
  datatype Outlook = Shortfall(amount: real) | Surplus(amount: real)

  /** The shortfall or surplus the strategy request reports: a tie counts as a surplus. */
  function Assess(p: Plan): (r: Outlook)
    ensures r.amount >= 0.0
    ensures r.Surplus? <==> p.finalValue >= p.targetAmount as real
    ensures r.Surplus? ==> p.targetAmount as real + r.amount == p.finalValue
    ensures r.Shortfall? ==> p.finalValue + r.amount == p.targetAmount as real
  {
    var gap := p.finalValue - p.targetAmount as real;
    if gap < 0.0 then Shortfall(-gap) else Surplus(gap)
  }

  /**
   * Storing the advisor's strategy: only a non-empty reply is kept; an empty
   * or missing one leaves whatever insights the plan already had.
   */
  function AttachInsights(p: Plan, reply: Option<string>): (r: Plan)
    ensures r.aiInsights == (if reply.Some? && reply.value != "" then reply else p.aiInsights)
    ensures r.(aiInsights := p.aiInsights) == p
    ensures Consistent(p) ==> Consistent(r)
  {
    match reply
    case Some(text) => if text != "" then p.(aiInsights := Some(text)) else p
    case None => p
  }
}

=== FILE: risk_label.dfy ===
/**
 * Turning the selected risk-profile label, such as "Moderate (9%)", into an
 * annual rate: the text after the first '(' with every "%)" removed is read
 * as a decimal percentage and divided by one hundred.
 */
module RiskLabel {
  import opened Wrappers

  /** The three choices of the risk-profile select box, in display order. */
  const Labels: seq<string> := ["Conservative (6%)", "Moderate (9%)", "Aggressive (12%)"]

  /** Why a label yields no rate: the two exceptions the conversion can raise. */
  datatype LabelError =
    | NoOpeningParen          // splitting on '(' left no second piece (IndexError)
    | NotANumber(text: string) // the percentage text is not a decimal numeral (ValueError)

  // ---------------------------------------------------------------------------
  // Splitting on a one-character separator
  // ---------------------------------------------------------------------------

  /** The pieces of `s` between occurrences of `sep`, as Python's `str.split(sep)`. */
  function Split(s: string, sep: char): (pieces: seq<string>)
    ensures |pieces| >= 1
    ensures |pieces| == 1 <==> sep !in s
    ensures forall i :: 0 <= i < |pieces| ==> sep !in pieces[i]
  {
    if |s| == 0 then [""]
    else
      var rest := Split(s[1..], sep);
      if s[0] == sep then [""] + rest
      else
        assert sep !in [s[0]] + rest[0];
        [[s[0]] + rest[0]] + rest[1..]
  }

  /** The inverse of `Split`: the pieces glued back together with `sep` between them. */
  function Join(pieces: seq<string>, sep: char): string
    requires |pieces| >= 1
  {
    if |pieces| == 1 then pieces[0] else pieces[0] + [sep] + Join(pieces[1..], sep)
  }

  /** Splitting loses nothing: joining the pieces restores the original text. */
  lemma {:induction false} SplitJoin(s: string, sep: char)
    ensures Join(Split(s, sep), sep) == s
  {
    if |s| > 0 {
      var rest := Split(s[1..], sep);
      SplitJoin(s[1..], sep);
      if s[0] == sep {
        assert ([""] + rest)[1..] == rest;
      } else {
        JoinConsFirst(s[0], rest, sep);
        assert s == [s[0]] + s[1..];
      }
    }
  }

  /** A character prefixed to the first piece comes first in the joined text. */
  lemma JoinConsFirst(c: char, pieces: seq<string>, sep: char)
    requires |pieces| >= 1
    ensures Join([[c] + pieces[0]] + pieces[1..], sep) == [c] + Join(pieces, sep)
  {
    var cons := [[c] + pieces[0]] + pieces[1..];
    if |pieces| > 1 {
      assert cons[1..] == pieces[1..];
    }
  }

  /** Text before the first separator is the first piece; the rest is split on its own. */
  lemma {:induction false} SplitAtFirst(a: string, b: string, sep: char)
    requires sep !in a
    ensures Split(a + [sep] + b, sep) == [a] + Split(b, sep)
  {
    var s := a + [sep] + b;
    if |a| == 0 {
      assert s[1..] == b;
    } else {
      assert s[1..] == a[1..] + [sep] + b;
      SplitAtFirst(a[1..], b, sep);
      assert [a[0]] + a[1..] == a;
    }
  }

  // ---------------------------------------------------------------------------
  // Replacing every occurrence of a pattern
  // ---------------------------------------------------------------------------

  /** `s` has `pat` starting at index `i`. */
  predicate OccursAt(s: string, pat: string, i: nat)
  {
    i + |pat| <= |s| && s[i..i + |pat|] == pat
  }

  /**
   * Python's `s.replace(pat, rep)`: occurrences are found left to right and do not
   * overlap; an empty pattern inserts `rep` before every character and at the end.
   */
  function ReplaceAll(s: string, pat: string, rep: string): (r: string)
    ensures |pat| > 0 && |rep| <= |pat| ==> |r| <= |s|
    ensures |pat| == 0 ==> |r| == |s| + (|s| + 1) * |rep|
    decreases |s|
  {
    if |pat| == 0 then
      if |s| == 0 then rep else rep + [s[0]] + ReplaceAll(s[1..], pat, rep)
    else if |pat| <= |s| && s[..|pat|] == pat then
      rep + ReplaceAll(s[|pat|..], pat, rep)
    else if |s| == 0 then
      ""
    else
      [s[0]] + ReplaceAll(s[1..], pat, rep)
  }

  /** Text in which the pattern never occurs is left as it is. */
  lemma {:induction false} ReplaceAbsent(s: string, pat: string, rep: string)
    requires |pat| > 0
    requires forall i: nat :: i <= |s| ==> !OccursAt(s, pat, i)
    ensures ReplaceAll(s, pat, rep) == s
  {
    if |s| > 0 {
      assert !OccursAt(s, pat, 0);
      forall i: nat | i <= |s[1..]|
        ensures !OccursAt(s[1..], pat, i)
      {
        if i + |pat| <= |s[1..]| {
          assert s[1..][i..i + |pat|] == s[i + 1..i + 1 + |pat|];
          assert !OccursAt(s, pat, i + 1);
        }
      }
      ReplaceAbsent(s[1..], pat, rep);
    }
  }

  /**
   * Replacement is leftmost and non-overlapping: when the first occurrence of the
   * pattern starts right after `a`, that occurrence becomes `rep` and the search
   * resumes after it.
   */
  lemma {:induction false} ReplaceLeftmost(a: string, pat: string, rep: string, b: string)
    requires |pat| > 0
    requires forall i: nat :: i < |a| ==> !OccursAt(a + pat + b, pat, i)
    ensures ReplaceAll(a + pat + b, pat, rep) == a + rep + ReplaceAll(b, pat, rep)
  {
    var s := a + pat + b;
    if |a| == 0 {
      assert s[..|pat|] == pat && s[|pat|..] == b;
    } else {
      var t, tail := a[1..] + pat + b, ReplaceAll(b, pat, rep);
      assert ReplaceAll(s, pat, rep) == [a[0]] + ReplaceAll(t, pat, rep) by {
        assert !OccursAt(s, pat, 0);
        assert s[0] == a[0] && s[1..] == t;
        ReplaceSkipsFirst(s, pat, rep);
      }
      assert ReplaceAll(t, pat, rep) == a[1..] + rep + tail by {
        NoOccurrenceShift(a, pat, b);
        ReplaceLeftmost(a[1..], pat, rep, b);
      }
      assert [a[0]] + (a[1..] + rep + tail) == a + rep + tail;
    }
  }

  /** Where the pattern does not start, the first character is kept and replacing moves on. */
  lemma ReplaceSkipsFirst(s: string, pat: string, rep: string)
    requires |pat| > 0 && |s| > 0 && !OccursAt(s, pat, 0)
    ensures ReplaceAll(s, pat, rep) == [s[0]] + ReplaceAll(s[1..], pat, rep)
  {
  }

  /** Dropping the first character of `a` keeps the first occurrence of the pattern after `a`. */
  lemma NoOccurrenceShift(a: string, pat: string, b: string)
    requires |a| > 0
    requires forall i: nat :: i < |a| ==> !OccursAt(a + pat + b, pat, i)
    ensures forall i: nat :: i < |a| - 1 ==> !OccursAt(a[1..] + pat + b, pat, i)
  {
    var s := a + pat + b;
    assert s[1..] == a[1..] + pat + b;
    forall i: nat | i < |a| - 1
      ensures !OccursAt(s[1..], pat, i)
    {
      assert s[1..][i..i + |pat|] == s[i + 1..i + 1 + |pat|];
      assert !OccursAt(s, pat, i + 1);
    }
  }

  /** A pattern appended to text that cannot start it is replaced exactly once, at the end. */
  lemma {:induction false} ReplaceTrailing(s: string, pat: string, rep: string)
    requires |pat| > 0 && pat[0] !in s
    ensures ReplaceAll(s + pat, pat, rep) == s + rep
  {
    forall i: nat | i < |s|
      ensures !OccursAt(s + pat + "", pat, i)
    {
      assert (s + pat + "")[i] == s[i] != pat[0];
    }
    ReplaceLeftmost(s, pat, rep, "");
    assert s + pat + "" == s + pat;
    assert ReplaceAll("", pat, rep) == "";
  }

  // ---------------------------------------------------------------------------
  // Reading a decimal numeral
  // ---------------------------------------------------------------------------

  predicate IsDigit(c: char)
  {
    '0' <= c <= '9'
  }

  predicate IsDigits(s: string)
  {
    forall i :: 0 <= i < |s| ==> IsDigit(s[i])
  }

  /** The value of a digit string, most significant digit first (0 for the empty string). */
  function DigitsValue(s: string): (n: nat)
    requires IsDigits(s)
    ensures n < Pow10(|s|)
  {
    if |s| == 0 then 0
    else
      var last := (s[|s| - 1] as int) - ('0' as int);
      DigitsValue(s[..|s| - 1]) * 10 + last
  }

  function Pow10(n: nat): (r: nat)
    ensures r >= 1
  {
    if n == 0 then 1 else 10 * Pow10(n - 1)
  }

  /** `text` has its decimal point at `k`, with only digits on either side. */
  predicate PointAt(text: string, k: int)
  {
    0 <= k < |text| && text[k] == '.' && IsDigits(text[..k]) && IsDigits(text[k + 1..])
  }

  /**
   * A plain decimal numeral: digits with at most one '.', and at least one digit
   * in all ("9", "12.5", "7.", ".5").
   */
  predicate IsNumeral(text: string)
  {
    || (|text| > 0 && IsDigits(text))
    || (|text| >= 2 && exists k :: 0 <= k < |text| && PointAt(text, k))
  }

  /**
   * Python's `float(text)` restricted to plain decimal numerals; any other text
   * is the `ValueError`, here `None`.
   */
  function ParseDecimal(text: string): (r: Option<real>)
    ensures r.Some? ==> r.value >= 0.0
    ensures r.Some? ==> exists i :: 0 <= i < |text| && IsDigit(text[i])
    ensures r.Some? ==> IsNumeral(text)
  {
    var parts := Split(text, '.');
    if |parts| == 1 then
      if |text| > 0 && IsDigits(text) then
        assert IsDigit(text[0]);
        Some(DigitsValue(text) as real)
      else None
    else if |parts| == 2 && IsDigits(parts[0]) && IsDigits(parts[1]) && |parts[0]| + |parts[1]| > 0 then
      TwoPieceNumeral(text, parts);
      Some(DigitsValue(parts[0]) as real + DigitsValue(parts[1]) as real / Pow10(|parts[1]|) as real)
    else None
  }

  /** Text splitting on '.' into two digit strings, not both empty, is a numeral with a digit. */
  lemma {:induction false} TwoPieceNumeral(text: string, parts: seq<string>)
    requires parts == Split(text, '.') && |parts| == 2
    requires IsDigits(parts[0]) && IsDigits(parts[1]) && |parts[0]| + |parts[1]| > 0
    ensures exists i :: 0 <= i < |text| && IsDigit(text[i])
    ensures IsNumeral(text)
  {
    SplitJoin(text, '.');
    assert text == parts[0] + ['.'] + parts[1];
    assert if |parts[0]| > 0 then IsDigit(text[0]) else IsDigit(text[1]);
    assert text[..|parts[0]|] == parts[0] && text[|parts[0]| + 1..] == parts[1];
    assert PointAt(text, |parts[0]|);
  }

  /** A non-empty digit string reads as the whole number it spells. */
  lemma ParseDigits(text: string)
    requires |text| > 0 && IsDigits(text)
    ensures ParseDecimal(text) == Some(DigitsValue(text) as real)
  {
    assert forall i :: 0 <= i < |text| ==> text[i] != '.';
  }

  /** A numeral with a point reads as its whole part plus its fraction digits over 10^(their count). */
  lemma {:induction false} ParseFraction(whole: string, frac: string)
    requires IsDigits(whole) && IsDigits(frac) && |whole| + |frac| > 0
    ensures ParseDecimal(whole + "." + frac).Some?
    ensures ParseDecimal(whole + "." + frac).value
         == DigitsValue(whole) as real + DigitsValue(frac) as real / Pow10(|frac|) as real
  {
    assert '.' !in whole && '.' !in frac by {
      assert forall i :: 0 <= i < |whole| ==> IsDigit(whole[i]);
      assert forall i :: 0 <= i < |frac| ==> IsDigit(frac[i]);
    }
    assert whole + "." + frac == whole + ['.'] + frac;
    SplitOnce(whole, frac, '.');
  }

  /** `float` accepts exactly the numerals: anything else raises, here `None`. */
  lemma {:induction false} ParseDecimalDomain(text: string)
    ensures ParseDecimal(text).Some? <==> IsNumeral(text)
  {
    if IsNumeral(text) {
      if |text| > 0 && IsDigits(text) {
        ParseDigits(text);
      } else {
        var k :| 0 <= k < |text| && PointAt(text, k);
        var whole, frac := text[..k], text[k + 1..];
        assert text == whole + "." + frac;
        ParseFraction(whole, frac);
      }
    }
  }

  // ---------------------------------------------------------------------------
  // The conversion itself
  // ---------------------------------------------------------------------------

  /** The annual rate a profile names: its percentage divided by one hundred. */
  function ParseRate(profile: string): (r: Result<real, LabelError>)
    ensures r.Ok? ==> r.value >= 0.0
    ensures r == Err(NoOpeningParen) <==> '(' !in profile
    ensures r.Err? && r.error.NotANumber? ==> !IsNumeral(r.error.text)
  {
    var pieces := Split(profile, '(');
    if |pieces| < 2 then Err(NoOpeningParen)
    else
      var text := ReplaceAll(pieces[1], "%)", "");
      match ParseDecimal(text)
      case None =>
        ParseDecimalDomain(text);
        Err(NotANumber(text))
      case Some(percent) => Ok(percent / 100.0)
  }

  /** Text with exactly one separator splits into the parts before and after it. */
  lemma {:induction false} SplitOnce(a: string, b: string, sep: char)
    requires sep !in a && sep !in b
    ensures Split(a + [sep] + b, sep) == [a, b]
  {
    SplitAtFirst(a, b, sep);
    SplitJoin(b, sep);
  }

  /** Removing the closing "%)" from `digits%)` leaves the digits. */
  lemma {:induction false} StripPercent(digits: string)
    requires IsDigits(digits)
    ensures ReplaceAll(digits + "%)", "%)", "") == digits
  {
    assert '%' !in digits by {
      assert forall i :: 0 <= i < |digits| ==> IsDigit(digits[i]);
    }
    ReplaceTrailing(digits, "%)", "");
    assert digits + "" == digits;
  }

  /** A label with exactly one '(' is read from the text after it. */
  lemma {:induction false} ParseAfterParen(name: string, rest: string)
    requires '(' !in name && '(' !in rest
    requires ParseDecimal(ReplaceAll(rest, "%)", "")).Some?
    ensures ParseRate(name + ['('] + rest).Ok?
    ensures ParseRate(name + ['('] + rest).value == ParseDecimal(ReplaceAll(rest, "%)", "")).value / 100.0
  {
    SplitOnce(name, rest, '(');
  }

  /**
   * Any label with a '(' reads its rate from `mid`, the text between the first '(' and
   * the next one (or the end): the rate exists exactly when `mid` without its "%)" is a
   * numeral, and otherwise that text is the error.
   */
  lemma {:induction false} ParseRateText(name: string, mid: string, tail: string)
    requires '(' !in name && '(' !in mid
    requires tail == [] || tail[0] == '('
    ensures ParseRate(name + ['('] + mid + tail).Ok? <==> IsNumeral(ReplaceAll(mid, "%)", ""))
    ensures !IsNumeral(ReplaceAll(mid, "%)", "")) ==>
      ParseRate(name + ['('] + mid + tail) == Err(NotANumber(ReplaceAll(mid, "%)", "")))
  {
    SecondPiece(name, mid, tail);
    ParseDecimalDomain(ReplaceAll(mid, "%)", ""));
  }

  /** The second piece of a label split on '(' is the text from the first '(' to the next. */
  lemma {:induction false} SecondPiece(name: string, mid: string, tail: string)
    requires '(' !in name && '(' !in mid
    requires tail == [] || tail[0] == '('
    ensures |Split(name + ['('] + mid + tail, '(')| >= 2
    ensures Split(name + ['('] + mid + tail, '(')[1] == mid
  {
    var rest := Split(mid + tail, '(');
    assert Split(name + ['('] + mid + tail, '(') == [name] + rest by {
      assert name + ['('] + mid + tail == name + ['('] + (mid + tail);
      SplitAtFirst(name, mid + tail, '(');
    }
    FirstPieceBeforeParen(mid, tail);
  }

  /** Text without '(' followed by nothing or by a '(' is the first piece. */
  lemma {:induction false} FirstPieceBeforeParen(mid: string, tail: string)
    requires '(' !in mid
    requires tail == [] || tail[0] == '('
    ensures Split(mid + tail, '(')[0] == mid
  {
    if tail == [] {
      assert mid + tail == mid;
      SplitJoin(mid, '(');
    } else {
      assert mid + tail == mid + ['('] + tail[1..];
      SplitAtFirst(mid, tail[1..], '(');
    }
  }

  /** A label of the form `name(digits%)` names the rate digits/100. */
  lemma {:induction false} PercentLabel(name: string, digits: string)
    requires '(' !in name
    requires |digits| > 0 && IsDigits(digits)
    ensures ParseRate(name + "(" + digits + "%)").Ok?
    ensures ParseRate(name + "(" + digits + "%)").value == DigitsValue(digits) as real / 100.0
  {
    var rest := digits + "%)";
    assert name + "(" + digits + "%)" == name + ['('] + rest;
    assert '(' !in rest by {
      forall i | 0 <= i < |rest|
        ensures rest[i] != '('
      {
        if i < |digits| { assert IsDigit(digits[i]); }
      }
    }
    StripPercent(digits);
    ParseDigits(digits);
    ParseAfterParen(name, rest);
  }

  /** "Conservative (6%)" names 6% a year. */
  lemma ConservativeRate(profile: string)
    requires profile == Labels[0]
    ensures ParseRate(profile).Ok? && ParseRate(profile).value == 0.06
  {
    var name, digits := "Conservative ", "6";
    assert DigitsValue(digits) == 6;
    assert profile == name + "(" + digits + "%)";
    PercentLabel(name, digits);
  }

  /** "Moderate (9%)" names 9% a year. */
  lemma ModerateRate(profile: string)
    requires profile == Labels[1]
    ensures ParseRate(profile).Ok? && ParseRate(profile).value == 0.09
  {
    var name, digits := "Moderate ", "9";
    assert DigitsValue(digits) == 9;
    assert profile == name + "(" + digits + "%)";
    PercentLabel(name, digits);
  }

  /** "Aggressive (12%)" names 12% a year. */
  lemma AggressiveRate(profile: string)
    requires profile == Labels[2]
    ensures ParseRate(profile).Ok? && ParseRate(profile).value == 0.12
  {
    var name, digits := "Aggressive ", "12";
    assert DigitsValue(digits) == 12;
    assert profile == name + "(" + digits + "%)";
    PercentLabel(name, digits);
  }

  /** Every offered label parses, to a positive rate. */
  lemma OfferedLabelsParse(profile: string)
    requires profile in Labels
    ensures ParseRate(profile).Ok? && ParseRate(profile).value > 0.0
  {
    if profile == Labels[0] {
      ConservativeRate(profile);
    } else if profile == Labels[1] {
      ModerateRate(profile);
    } else {
      AggressiveRate(profile);
    }
  }
}

=== FILE: session.dfy ===
/**
 * The whole session: the current plan (if any) and the chat log, with every
 * user action written as a pure command from one session state to the next.
 * The language model is a parameter; the prompts it is given are kept as
 * structured values rather than formatted text.
 */
module Session {
  import opened Wrappers
  import Planner
  import Chat

  /**
   * The part of a plan that the prompts mention: the goal, the target, the
   * timeline and the projected final value. Neither the series nor earlier insights appear.
   */
  datatype Brief = Brief(goalName: string, targetAmount: int, timeline: int, finalValue: real)

  /** What the advisor is asked. A chat prompt carries the plan's brief and the new question only. */
  datatype Prompt =
    | StrategyRequest(brief: Brief, outlook: Planner.Outlook)
    | AdvisorQuestion(brief: Brief, question: string)

  /** The brief of a plan, as both prompts state it. */
  function BriefOf(p: Planner.Plan): Brief
  {
    Brief(p.goalName, p.targetAmount, p.timeline, p.finalValue)
  }

  /** The session: the stored plan (absent until the first projection) and the chat log. */
  datatype State = State(plan: Option<Planner.Plan>, messages: seq<Chat.Message>)

  /** One user action. */
  datatype Command =
    | ProjectWealthCmd(inputs: Planner.PlanInputs)
    | GenerateStrategyCmd
    | ClearChatCmd
    | DeleteExchangeCmd(index: nat)
    | SubmitQuestionCmd(question: string)

  /** A new session: no plan yet, and the greeting in the chat. */
  function Start(): (s: State)
    ensures s.plan == None
    ensures |s.messages| == 1 && s.messages[0].role == Chat.Assistant
  {
    State(None, Chat.Seed())
  }

  /**
   * The gateway: without an API key nothing is sent and there is no reply;
   * otherwise the model's reply, or nothing when the call failed.
   */
  function Ask(apiKey: string, model: Prompt -> Option<string>, prompt: Prompt): (r: Option<string>)
    ensures apiKey == "" ==> r == None
    ensures apiKey != "" ==> r == model(prompt)
  {
    if apiKey == "" then None else model(prompt)
  }

  /** "Project My Wealth": a successful recompute replaces the plan; a failed one changes nothing. */
  function ProjectWealth(s: State, inputs: Planner.PlanInputs): (r: State)
    ensures r.messages == s.messages
    ensures Planner.Recompute(inputs).Err? ==> r == s
    ensures Planner.Recompute(inputs).Ok? ==>
      r.plan.Some? && Planner.Consistent(r.plan.value) && r.plan.value.aiInsights == None
    ensures Planner.Recompute(inputs).Ok? ==> r == s.(plan := Some(Planner.Recompute(inputs).value))
  {
    match Planner.Recompute(inputs)
    case Ok(p) => s.(plan := Some(p))
    case Err(_) => s
  }

  /**
   * "Generate AI Strategy": offered only once a plan exists; a non-empty reply
   * becomes the plan's insights, and nothing else about the plan changes.
   */
  function GenerateStrategy(s: State, apiKey: string, model: Prompt -> Option<string>): (r: State)
    ensures r.messages == s.messages
    ensures s.plan == None || apiKey == "" ==> r == s
    ensures s.plan.Some? ==> r.plan.Some? && r.plan.value.(aiInsights := s.plan.value.aiInsights) == s.plan.value
    ensures s.plan.Some? && r.plan.value.aiInsights != s.plan.value.aiInsights ==>
      && r.plan.value.aiInsights == Ask(apiKey, model, StrategyRequest(BriefOf(s.plan.value), Planner.Assess(s.plan.value)))
      && r.plan.value.aiInsights.Some? && r.plan.value.aiInsights.value != ""
    ensures s.plan.Some? ==>
      var reply := Ask(apiKey, model, StrategyRequest(BriefOf(s.plan.value), Planner.Assess(s.plan.value)));
      reply.Some? && reply.value != "" ==> r.plan.value.aiInsights == reply
  {
    match s.plan
    case None => s
    case Some(p) =>
      var reply := Ask(apiKey, model, StrategyRequest(BriefOf(p), Planner.Assess(p)));
      s.(plan := Some(Planner.AttachInsights(p, reply)))
  }

  /** "Clear Entire Chat History": available with or without a plan. */
  function ClearChat(s: State): (r: State)
    ensures r.plan == s.plan
    ensures |r.messages| == 1 && r.messages[0].role == Chat.Assistant
  {
    s.(messages := Chat.Cleared())
  }

  /** The delete button beside question `i`: the chat, and its buttons, exist only once there is a plan. */
  function DeleteExchange(s: State, i: nat): (r: State)
    ensures r.plan == s.plan
    ensures s.plan == None || !Chat.CanDeletePair(s.messages, i) ==> r == s
    ensures s.plan.Some? && Chat.CanDeletePair(s.messages, i) ==>
      r.messages == s.messages[..i] + s.messages[i + 2..]
  {
    if s.plan == None then s
    else s.(messages := Chat.DeletePair(s.messages, i))
  }

  /**
   * A chat submission: ignored without a plan, for empty input, or without an
   * API key; otherwise the question and then the reply are appended, the reply
   * even when the model returned nothing.
   */
  function SubmitQuestion(s: State, question: string, apiKey: string, model: Prompt -> Option<string>): (r: State)
    ensures r.plan == s.plan
    ensures s.plan == None || question == "" || apiKey == "" ==> r == s
    ensures s.plan.Some? && question != "" && apiKey != "" ==>
      && |r.messages| == |s.messages| + 2
      && r.messages[..|s.messages|] == s.messages
      && r.messages[|s.messages|] == Chat.Message(Chat.User, Some(question))
      && r.messages[|s.messages| + 1] == Chat.Message(Chat.Assistant, model(AdvisorQuestion(BriefOf(s.plan.value), question)))
  {
    if s.plan == None || question == "" || apiKey == "" then s
    else
      var reply := Ask(apiKey, model, AdvisorQuestion(BriefOf(s.plan.value), question));
      s.(messages := Chat.AppendExchange(s.messages, question, reply))
  }

  /** Applying one user action. */
  function Step(s: State, cmd: Command, apiKey: string, model: Prompt -> Option<string>): State
  {
    match cmd
    case ProjectWealthCmd(inputs) => ProjectWealth(s, inputs)
    case GenerateStrategyCmd => GenerateStrategy(s, apiKey, model)
    case ClearChatCmd => ClearChat(s)
    case DeleteExchangeCmd(i) => DeleteExchange(s, i)
    case SubmitQuestionCmd(q) => SubmitQuestion(s, q, apiKey, model)
  }

  /** Applying a sequence of user actions in order. */
  function Run(s: State, cmds: seq<Command>, apiKey: string, model: Prompt -> Option<string>): State
    decreases |cmds|
  {
    if |cmds| == 0 then s else Run(Step(s, cmds[0], apiKey, model), cmds[1..], apiKey, model)
  }

  /** The session invariant: the chat alternates and a stored plan agrees with its own inputs. */
  ghost predicate Valid(s: State)
  {
    Chat.Alternating(s.messages) && (s.plan.Some? ==> Planner.Consistent(s.plan.value))
  }

  /** Every user action keeps the session valid. */
  lemma StepKeepsValid(s: State, cmd: Command, apiKey: string, model: Prompt -> Option<string>)
    requires Valid(s)
    ensures Valid(Step(s, cmd, apiKey, model))
  {
    match cmd
    case ProjectWealthCmd(inputs) =>
    case GenerateStrategyCmd =>
    case ClearChatCmd =>
      Chat.ClearedIsGreeting();
    case DeleteExchangeCmd(i) =>
      Chat.DeletePairKeepsAlternating(s.messages, i);
    case SubmitQuestionCmd(q) =>
      if s.plan.Some? && q != "" && apiKey != "" {
        Chat.AppendKeepsAlternating(s.messages, q, Ask(apiKey, model, AdvisorQuestion(BriefOf(s.plan.value), q)));
      }
  }

  /** Every session reachable from the start by any sequence of actions is valid. */
  lemma {:induction false} RunKeepsValid(s: State, cmds: seq<Command>, apiKey: string, model: Prompt -> Option<string>)
    requires Valid(s)
    ensures Valid(Run(s, cmds, apiKey, model))
    decreases |cmds|
  {
    if |cmds| > 0 {
      StepKeepsValid(s, cmds[0], apiKey, model);
      RunKeepsValid(Step(s, cmds[0], apiKey, model), cmds[1..], apiKey, model);
    }
  }

  /** A new session is valid, and so is every session it leads to. */
  lemma ReachableSessionsValid(cmds: seq<Command>, apiKey: string, model: Prompt -> Option<string>)
    ensures Valid(Start())
    ensures Valid(Run(Start(), cmds, apiKey, model))
  {
    Chat.SeedIsGreeting();
    RunKeepsValid(Start(), cmds, apiKey, model);
  }

  /** Recomputing overwrites the plan: whatever was stored before, the same inputs give the same plan. */
  lemma ProjectWealthReplacesPlan(s1: State, s2: State, inputs: Planner.PlanInputs)
    ensures Planner.Recompute(inputs).Ok? ==>
      && ProjectWealth(s1, inputs).plan == ProjectWealth(s2, inputs).plan
      && ProjectWealth(s1, inputs).plan.value.aiInsights == None
  {
  }

  /** Insights never outlive a recompute: generating a strategy and then projecting again leaves none. */
  lemma InsightsClearedByRecompute(s: State, apiKey: string, model: Prompt -> Option<string>, inputs: Planner.PlanInputs)
    ensures Planner.Recompute(inputs).Ok? ==>
      ProjectWealth(GenerateStrategy(s, apiKey, model), inputs).plan.value.aiInsights == None
  {
  }

  /**
   * The advisor is not shown the conversation: the reply appended to a question
   * is the gateway's answer to a prompt built from the plan and that question
   * alone, which does not mention the earlier messages.
   */
  lemma SubmitPromptIgnoresHistory(s: State, question: string, apiKey: string, model: Prompt -> Option<string>)
    ensures s.plan.Some? && question != "" && apiKey != "" ==>
      SubmitQuestion(s, question, apiKey, model).messages[|s.messages| + 1].content
        == Ask(apiKey, model, AdvisorQuestion(BriefOf(s.plan.value), question))
  {
  }

  /**
   * Neither prompt shows the advisor earlier insights: a plan that differs only
   * in its insights gets the same strategy request and the same chat prompt.
   */
  lemma PromptsIgnoreInsights(p: Planner.Plan, insights: Option<string>, question: string)
    ensures var q := p.(aiInsights := insights);
      && StrategyRequest(BriefOf(q), Planner.Assess(q)) == StrategyRequest(BriefOf(p), Planner.Assess(p))
      && AdvisorQuestion(BriefOf(q), question) == AdvisorQuestion(BriefOf(p), question)
  {
  }
}

=== FILE: wrappers.dfy ===
/** Failure-carrying datatypes used throughout the model. */
module Wrappers {

  /** A value that may be missing: the model of Python's `None`. */
  datatype Option<+T> = None | Some(value: T)

  /** Either a value or the error that stopped its computation (a Python exception). */
  datatype Result<+R, +E> = Ok(value: R) | Err(error: E)
}
